=== FILE: README.md ===
# Share accounting of the hashrate reporter, in Dafny

This project models the share-accounting core of `miner.go`, a small Go
program that reports a mining-pool client's hashrate from records kept in
Redis. The model covers three parts of that file:

- **`GetWorkers`**: scan the `workers` database for keys `"{clientID}.*"`.
  Each key's second `.`-separated part is the worker ID, and the map sends it
  to the key's `worker` field.
- **`GetShares`**: scan the `shares` database for keys
  `"{clientID}.{workerID}.*"` and read each key's third part as an int64
  share time. A share passes a time filter or is skipped. For a kept share
  the function reads `valid` and `difficulty` and updates four uint64
  counters. From the counters it derives `hashrate`, `badrate` and
  `badshare`.
- **`FormatHashrate`**: pick a unit prefix (none, K, M, G, T, P) by a
  top-down cascade of thresholds at powers of 1000, and scale the value to it.

The store is a `Redis.Store`: the keys in the order a `SCAN` visits them,
plus a map from each key to its hash. Everything is a pure function. The
current time is a parameter. Errors are `Results.Result` values: the first
failing key aborts the whole call, and no partial map or report is
returned. Go's run-time panics are `Err` values too, so that they can be
stated about. These are `s[1]` or `s[2]` on a key with too few parts, and
integer division by zero.

Fixed-width arithmetic is explicit. The four counters are uint64 and wrap
modulo 2^64 (`Machine.AddU64`). The difference `currentTime - share_time`
is an int64 and wraps in two's complement (`Machine.SubI64`). The float64
arithmetic of the hashrate, the badrate and the prefix choice is modelled
as exact `real` arithmetic.

Module layout: `Results` (Option, Result, first-failure traversal),
`Machine` (Go integer widths), `Seqs` (weighted sums), `Decimal` (the
`strconv` readers), `Strings` (`strings.Split`), `Redis` (`HGET`, `SCAN`),
`Workers`, `Shares`, `Rates` and `Format`.

## What the code does where it does not compile

`miner.go` does not compile as written. The model follows the evident intent
at each such point:

- miner.go:9-18 puts a slice in a `const` block. The model keeps only the
  numeric constants it uses, `ConstBlake2B` and `StepBlake2B`.
- miner.go:81 and miner.go:111 range over slice indices (`for key := range
  keys`). The model visits the keys themselves.
- miner.go:82 uses a full-width `（` where `(` is meant.
- miner.go:113 assigns the two results of `strconv.ParseInt` to one
  variable. The model reads the time with `ParseInt(s, 10, 64)` and treats a
  parse failure as fatal.
- miner.go:129 applies `int(...)` to a string. The model reads it with
  `strconv.Atoi`, which is `ParseInt(s, 10, 64)` on a 64-bit platform.
- miner.go:132 and miner.go:135 add a string to a uint64. The model reads
  `difficulty` with `ParseUint(s, 10, 64)`. A parse failure is fatal.
- miner.go:142 multiplies a float64 by a uint64. The model converts to
  float64 after the uint64 quotient `Shares / numShares`. So the mean
  difficulty is truncated, as the expression is written.

Two points about what the code computes:

- The time filter is `share_time <= currentTime - share_time`. It is not a
  window with an acknowledgement delay. For post-epoch times it skips
  exactly the shares with `2 * share_time <= currentTime`
  (`Shares.SkippedMeans`). So it keeps any share from the later half of the
  epoch, however old (`Shares.OldShareRetained`).
- `Shares` sums the difficulty of every kept share, valid or not.

## Model

| member | source | states |
|---|---|---|
| `Results.Traverse` | miner.go:81-91 | Keys are visited in order. The loop succeeds exactly when every key reads, with one value per key. Otherwise it returns the error of the first key that fails, all earlier keys having read. |
| `Machine.AddU64` | miner.go:131-135 | `+=` and `++` on a uint64 counter give the true sum reduced modulo 2^64. |
| `Machine.SubI64` | miner.go:114 | `currentTime - share_time` is the int64 congruent to the true difference modulo 2^64, and is the true difference when that fits. |
| `Decimal.ParseFormatInt` | miner.go:113 | Every int64 share time written in decimal reads back as itself. |
| `Decimal.ParseFormatUint` | miner.go:124-135 | Every uint64 difficulty written in decimal reads back as itself. |
| `Decimal.FormatParseInt` | miner.go:113 | Conversely, accepted time text with no `+`, no leading zero after the sign and no `-0` is exactly the canonical rendering of the value read. |
| `Decimal.ParseIntAccepts` | miner.go:113 | A share time is accepted exactly when it is an optional sign followed by digits, and the magnitude is within the int64 range for that sign. Leading zeros and `-0` are accepted. |
| `Decimal.ParseIntExamples` | miner.go:113 | `"007"`, `"+007"`, `"-007"` and `"-0"` read as 7, 7, -7 and 0. |
| `Decimal.ParseIntPlus` | miner.go:113 | An explicit `+` before unsigned text changes neither whether the time text is accepted nor the value read. |
| `Decimal.ParseUintLeadingZero` | miner.go:124-135 | A leading `0` before a non-empty text changes neither whether the difficulty text is accepted nor the value read. |
| `Decimal.FormatParseUint` | miner.go:124-135 | Conversely, a difficulty text accepted without a leading zero is exactly the canonical rendering of the value read. |
| `Strings.Split` | miner.go:82 | `strings.SplitN(key, ".", -1)` yields at least one part, and no part contains a `.`. |
| `Strings.JoinSplit` | miner.go:82 | Splitting loses nothing: the parts joined with `.` give the key back. |
| `Strings.SplitJoin` | miner.go:112 | Joining dot-free parts with `.` and splitting again gives the parts back. |
| `Redis.Matching` | miner.go:77-80 | A scan with pattern `prefix*` returns exactly the keys of the database that start with the prefix, and no more keys than the database holds. |
| `Redis.MatchingAppend` | miner.go:80-81 | The scan keeps every matching occurrence in visit order: scanning two runs of keys gives the scan of the first followed by the scan of the second, so a repeated key is visited again. |
| `Redis.MatchingOne` | miner.go:80-81 | A single key is returned exactly when it starts with the prefix. |
| `Workers.BuildWorkerMapDomain` | miner.go:90 | The worker map's keys are exactly the worker IDs that were read. |
| `Workers.BuildWorkerMapLastWins` | miner.go:90 | A repeated worker ID keeps the name of the last entry that carries it. |
| `Workers.WorkersOfFailure` | miner.go:84-89 | Building the map succeeds exactly when every key has a second part and a `worker` field. Otherwise it returns the error of the first key that does not. |
| `Workers.WorkersOfDomain` | miner.go:81-91 | On success the map's keys are exactly the second `.`-parts of the scanned keys. |
| `Workers.WorkersOfLastWins` | miner.go:84-90 | On success each worker ID maps to the `worker` field of the last scanned key with that ID. |
| `Workers.ScannedWorkerKeyHasId` | miner.go:77-84 | Every key matching `"{clientID}.*"` has a second part, so `s[1]` never panics. |
| `Workers.WorkerKeyId` | miner.go:82-84 | For dot-free IDs the key `"{clientID}.{workerID}"` yields `workerID`. |
| `Workers.GetWorkers` | miner.go:74-97 | The call succeeds exactly when every scanned key has a `worker` field. The map's contents are stated by `Workers.WorkersOfDomain` and `Workers.WorkersOfLastWins` over the scanned keys. |
| `Workers.GetWorkersFailure` | miner.go:74-97 | `GetWorkers` fails exactly when some scanned key lacks a `worker` field. It then fails with the `redis.Nil` of the first such key. |
| `Shares.Skipped` | miner.go:114-117 | For post-epoch times a share is skipped exactly when `2 * share_time <= currentTime`. A share later than `currentTime` is never skipped. |
| `Shares.ReadShare` | miner.go:112-128 | One key reads successfully only if its time part parses. It then yields a share exactly when that time passes the filter. |
| `Shares.ReadShareKeeps` | miner.go:112-128 | Conversely, a key whose time parses and passes the filter, and whose `valid` and `difficulty` fields read and parse, yields exactly the share with those values. |
| `Shares.ReadShareFieldOrder` | miner.go:119-128 | For a key that passes the filter, `valid` is read first. A missing `valid` fails with its `redis.Nil` whatever `difficulty` holds. With `valid` present, a missing `difficulty` fails with its own `redis.Nil`. |
| `Shares.SkippedShareNotRead` | miner.go:114-124 | A skipped share is decided from its key alone. None of its fields is read, so a missing or bad field cannot make it fail. |
| `Shares.RetainedShareFields` | miner.go:112-129 | A kept share carries its key's time, which passed the filter, and the values parsed from its `valid` and `difficulty` fields. |
| `Shares.SkippedMeans` | miner.go:114-117 | For post-epoch times the filter skips a share exactly when `2 * share_time <= currentTime`. |
| `Shares.SkippedWraps` | miner.go:114-115 | When the int64 difference wraps, the filter departs from that reading: time -1 is kept at the largest `currentTime`. |
| `Shares.OldShareRetained` | miner.go:114-117 | A share one year old is kept once `currentTime` exceeds two years, so the filter bounds no age window. |
| `Shares.Retained` | miner.go:115-117 | Every share the reference sequence keeps passes the time filter. The converse is `Shares.RetainedExactly`. |
| `Shares.RetainedExactly` | miner.go:111-136 | When every key reads, one share is kept per key whose time passes the filter. The shares come in visit order, and each holds that key's time, `valid` and `difficulty`. |
| `Shares.CountsPassing` | miner.go:111-136 | When every key reads, `numShares` is the number of keys whose time passes the filter, modulo 2^64. |
| `Shares.RetainedPermutation` | miner.go:110-111 | Visiting the scanned keys in another order keeps the same multiset of shares. |
| `Shares.SomesOfReads` | miner.go:111-136 | The shares a successful pass over the keys keeps are, in order, the reference sequence of kept shares. |
| `Shares.Accumulate` | miner.go:129-135 | The invalid-share count changes exactly when `valid == 0`. Invalid difficulty never changes for a valid share. The share count always changes. |
| `Shares.Tally` | miner.go:105-136 | After the loop, `numShares` is the number of kept shares and `Shares` is the sum of their difficulties, whatever their valid flag. The invalid counters are the count and difficulty sum of the kept shares with `valid == 0`. Each is reduced modulo 2^64. |
| `Shares.InvalidWithinTotal` | miner.go:130-135 | Unbounded: at most every kept share is invalid, and invalid difficulty is at most total difficulty. |
| `Shares.TallyCountBound` | miner.go:130-134 | With fewer than 2^64 kept shares, `numInvalidShares <= numShares`, whatever the difficulties. |
| `Shares.TallySumBound` | miner.go:131-135 | When the difficulty sum does not overflow uint64, `invalidShares <= Shares`. |
| `Shares.TallyWraps` | miner.go:132-135 | With overflow the second bound fails: difficulties 2^64-1 (valid) and 1 (invalid) leave `Shares` at 0 and `invalidShares` at 1. |
| `Shares.TallyPermutation` | miner.go:134-135 | The counters do not depend on the order of the kept shares. |
| `Shares.SharesOf` | miner.go:109-145 | The call succeeds exactly when every scanned key reads. Otherwise it fails with the first failing key's error. On success `badshare` is the invalid count and `hashrate` is the hashrate of the difficulty sum, both modulo 2^64. `badrate` is the guarded badrate of the difficulty sum, the share count and the invalid count, all modulo 2^64. It is undefined exactly when the share count is 0. |
| `Shares.GetShares` | miner.go:99-146 | The call succeeds exactly when every key the scan returns reads. The report is stated by `Shares.SharesOf` over the scanned keys. |
| `Shares.GetSharesUndefinedRate` | miner.go:99-146 | On success `badrate` is undefined exactly when the number of scanned keys that pass the filter is 0 modulo 2^64. |
| `Shares.SharesOrderIndependent` | miner.go:110-111 | Whether the call succeeds, and its report, do not depend on the order the scan returns keys. |
| `Shares.ScannedShareKeyHasTime` | miner.go:102-113 | Every key matching `"{clientID}.{workerID}.*"` has a third part, so `s[2]` never panics. |
| `Shares.ShareKeyTime` | miner.go:112-113 | For dot-free parts the key `"{clientID}.{workerID}.{time}"` yields the time text. |
| `Shares.ReadShareErrors` | miner.go:112-128 | Once a key has a time part, reading it fails only on a missing field or a number that does not parse. |
| `Shares.GetSharesFailure` | miner.go:119-128 | On scanned keys `GetShares` fails only with `redis.Nil` or a parse error. It fails exactly when reading some scanned key fails. |
| `Shares.NoSharesAsWritten` | miner.go:142 | With no share kept, the guarded `badrate` is undefined, while the expression as written divides by zero. |
| `Rates.Hashrate` | miner.go:141 | `Shares * ConstBlake2B / StepBlake2B / 1000` is never negative, and is zero exactly when no difficulty was summed. |
| `Rates.HashrateMonotone` | miner.go:141 | More summed difficulty never gives a lower hashrate. |
| `Rates.HashrateAdditive` | miner.go:141 | The hashrate of a sum is the sum of the hashrates. |
| `Rates.Badrate` | miner.go:142 | The guarded badrate is undefined exactly when the share count is 0. Otherwise it is nonnegative, zero when nothing was rejected, and at most the hashrate when the invalid count is within the share count. |
| `Rates.RejectedBelowTotal` | miner.go:142 | The badrate is the hashrate of `numInvalidShares * (Shares / numShares)`, and does not exceed the full hashrate when invalid shares are at most all shares. |
| `Rates.BadrateAsWritten` | miner.go:142 | The expression as written fails with a division by zero exactly when the share count is 0. Otherwise its value is the guarded badrate. |
| `Rates.BadrateGuardAgrees` | miner.go:142 | The as-written badrate fails exactly when the share count is 0. The guarded one is then undefined, and the two agree everywhere else. |
| `Format.FormatHashrate` | miner.go:148-164 | The unit chosen is the one whose band `[1000^k, 1000^(k+1))` holds `h`, and scaling back gives `h`. No suffix iff `h < 1000`. The scaled value is at least 1 for any suffix and below 1000 for any unit but `P`. |
| `Format.BandUnique` | miner.go:150-162 | The bands of the six units do not overlap. |
| `Format.FormatPicksBand` | miner.go:150-162 | Exactly one branch fires: the unit of exponent `k` is chosen iff `h` lies in band `k`. |
| `Format.FormatEdges` | miner.go:150-162 | 0 and 999 get no suffix. 1000 is `1K`, 10^6 is `1M` and 10^15 is `1P`. The threshold values 10^3 to 10^15 get the letters `K`, `M`, `G`, `T` and `P`. |

## Findings

| source | as written | input that shows it | evidently intended | confidence | as-written member | corrected member |
|---|---|---|---|---|---|---|
| miner.go:142 | `Shares / numShares` is unsigned integer division with no guard. | A worker whose shares are all skipped, or who has none, gives `numShares == 0`. The division then panics and the program stops (`Shares.NoSharesAsWritten`). | The badrate is undefined, not a crash, when no share is counted. | high; not executed | `Rates.BadrateAsWritten` | `Rates.Badrate` |

The report of `Shares.SharesOf` uses the corrected `Rates.Badrate`.
`Rates.BadrateGuardAgrees` shows that the two agree whenever a share is
counted.

## Left out

- Redis client construction, `Ping` checks and the connection map
  (miner.go:25-44) are network I/O.
- `main` (miner.go:20-72) is left out. It handles arguments, looks up the
  wallet, prints, and calls `GetWorkers` and `GetShares` per worker. This is
  process I/O, and it ignores the error of `GetWorkers` at miner.go:55.
- Cursor pagination of `SCAN` (miner.go:79-95, miner.go:109-140) is not
  modelled. A scan is one complete pass over `Store.keys` that returns each
  matching occurrence in `keys`, in order. `keys` itself is not required to
  be duplicate-free or to have a hash for every key; a key with no hash
  reads as `redis.Nil`. `SCAN`'s own repeated returns are not modelled. As
  written, the `:=` at miner.go:80 and miner.go:110 declares a new `cursor`
  inside the loop, so every `Scan` call starts again from cursor 0. A
  keyspace that needs more than one batch would repeat the first batch
  forever.
- Scan errors are not modelled: the `err` of miner.go:80 and miner.go:110 is
  shadowed and never checked. Connection errors and `WRONGTYPE` replies of
  `HGET` are not modelled either; only `redis.Nil` is.
- `time.Now()` (miner.go:104) is the `currentTime` parameter.
- The `%.2f` rendering and float64 rounding (miner.go:141-161) are left out.
  Hashrate, badrate and the scaled value are exact reals.
- Glob semantics of `MATCH` are left out. A pattern `p*` is taken as "starts
  with `p`", so IDs are assumed to contain no glob metacharacters.
- `strconv` error kinds (syntax and range) are not told apart. Both are
  `NumError`.
- The constants `DB`, `host`, `port` and `passwd` (connection settings) and
  the batch size `count := 100` (pagination) are left out. The constant
  `interval = 100` (miner.go:15) is used nowhere in `miner.go`; in
  particular the time filter does not use it.
- The `fmt.Println(err)` calls before each error return (miner.go:87,
  miner.go:121, miner.go:126) are console output and are left out; only
  the returned error is modelled.
- The wallet lookup in the `accounts` database (miner.go:46-54) is left out
  with `main`.

=== FILE: decimal.dfy ===
/** The decimal readers of Go's `strconv` package that miner.go needs:
    `ParseInt(s, 10, 64)` (and `Atoi`, the same on a 64-bit platform) and
    `ParseUint(s, 10, 64)`, with canonical renderings as their partners. */
module Decimal {

  import opened Results
  import opened Machine

  predicate IsDigit(c: char) {
    '0' <= c <= '9'
  }

  predicate AllDigits(s: string) {
    forall i | 0 <= i < |s| :: IsDigit(s[i])
  }

  function DigitValue(c: char): nat
    requires IsDigit(c)
  {
    c as int - '0' as int
  }

  function DigitChar(d: nat): (c: char)
    requires d < 10
    ensures IsDigit(c) && DigitValue(c) == d
  {
    ('0' as int + d) as char
  }

  /** The number a string of decimal digits denotes, most significant first. */
  function Value(s: string): nat
    requires AllDigits(s)
    decreases |s|
  {
    if |s| == 0 then 0 else 10 * Value(s[..|s| - 1]) + DigitValue(s[|s| - 1])
  }

  /** `strconv.ParseUint(s, 10, 64)`: one or more digits, no sign, no
      underscores, at most 2^64 - 1. Syntax and range errors are not told apart. */
  function ParseUint64(s: string): Result<uint64>
  {
    if |s| == 0 || !AllDigits(s) || Value(s) > MAX_UINT64 then Err(NumError(s))
    else Ok(Value(s))
  }

  /** `strconv.ParseInt(s, 10, 64)`: an optional `+` or `-`, then what
      `ParseUint` accepts, within the int64 range. */
  function ParseInt64(s: string): Result<int64>
  {
    if |s| == 0 then Err(NumError(s))
    else
      var negative := s[0] == '-';
      var body := if s[0] == '+' || s[0] == '-' then s[1..] else s;
      match ParseUint64(body)
      case Err(_) => Err(NumError(s))
      case Ok(u) =>
        if !negative && u > MAX_INT64 then Err(NumError(s))
        else if negative && u > -MIN_INT64 then Err(NumError(s))
        else
          var v: int := if negative then 0 - u else u;
          Ok(v)
  }

  /** The canonical rendering of a natural number: digits only, no leading zero. */
  function FormatUint(n: nat): string
    decreases n
  {
    if n < 10 then [DigitChar(n)] else FormatUint(n / 10) + [DigitChar(n % 10)]
  }

  /** `strconv.FormatInt(n, 10)`: a minus sign for negatives, then the digits. */
  function FormatInt(n: int): string
  {
    if n < 0 then "-" + FormatUint(-n) else FormatUint(n)
  }

  /** The canonical rendering is a nonempty digit string with no leading zero
      that denotes `n`. */
  lemma {:induction false} FormatUintValue(n: nat)
    ensures |FormatUint(n)| > 0 && AllDigits(FormatUint(n))
    ensures FormatUint(n)[0] != '0' || n == 0
    ensures Value(FormatUint(n)) == n
    decreases n
  {
    if n >= 10 {
      FormatUintValue(n / 10);
      var s := FormatUint(n);
      assert s[..|s| - 1] == FormatUint(n / 10);
    }
  }

  /** Every uint64 written canonically reads back as itself. */
  lemma ParseFormatUint(n: uint64)
    ensures ParseUint64(FormatUint(n)) == Ok(n)
  {
    FormatUintValue(n);
  }

  /** Every int64 written as `FormatInt` does reads back as itself. */
  lemma ParseFormatInt(n: int64)
    ensures ParseInt64(FormatInt(n)) == Ok(n)
  {
    var s := FormatInt(n);
    if n < 0 {
      var m: nat := 0 - n;
      FormatUintValue(m);
      assert s[1..] == FormatUint(m);
    } else {
      FormatUintValue(n);
    }
  }

  lemma {:induction false} LeadingDigitPositive(s: string)
    requires |s| > 0 && AllDigits(s) && s[0] != '0'
    ensures Value(s) > 0
    decreases |s|
  {
    if |s| > 1 {
      LeadingDigitPositive(s[..|s| - 1]);
    }
  }

  /** Conversely, a digit string without a leading zero is the canonical
      rendering of the number it denotes. */
  lemma {:induction false} FormatValue(s: string)
    requires |s| > 0 && AllDigits(s)
    requires s[0] != '0' || |s| == 1
    ensures FormatUint(Value(s)) == s
    decreases |s|
  {
    var n := Value(s);
    var last := s[|s| - 1];
    if |s| == 1 {
      assert DigitChar(DigitValue(last)) == last;
      assert s == [last];
    } else {
      var p := s[..|s| - 1];
      LeadingDigitPositive(p);
      FormatValue(p);
      assert n / 10 == Value(p) && n % 10 == DigitValue(last);
      assert DigitChar(DigitValue(last)) == last;
      assert s == p + [last];
    }
  }

  /** Whatever `ParseUint64` accepts without a leading zero is exactly the
      canonical rendering of the value it returns. */
  lemma FormatParseUint(s: string)
    requires ParseUint64(s).Ok?
    requires s[0] != '0' || |s| == 1
    ensures FormatUint(ParseUint64(s).value) == s
  {
    FormatValue(s);
  }

  /** A leading `0` changes neither the digits' validity nor their value. */
  lemma {:induction false} LeadingZeroValue(s: string)
    requires AllDigits(s)
    ensures AllDigits("0" + s) && Value("0" + s) == Value(s)
    decreases |s|
  {
    var z := "0" + s;
    if |s| > 0 {
      var p := s[..|s| - 1];
      LeadingZeroValue(p);
      assert z[..|z| - 1] == "0" + p;
      assert z[|z| - 1] == s[|s| - 1];
    }
  }

  /** `ParseUint` accepts leading zeros: `"0" + s` is read exactly as `s`
      for any non-empty `s`. */
  lemma ParseUintLeadingZero(s: string)
    requires |s| > 0
    ensures ParseUint64("0" + s).Ok? <==> ParseUint64(s).Ok?
    ensures ParseUint64(s).Ok? ==> ParseUint64("0" + s).value == ParseUint64(s).value
  {
    var z := "0" + s;
    if AllDigits(s) {
      LeadingZeroValue(s);
    } else {
      var i :| 0 <= i < |s| && !IsDigit(s[i]);
      assert z[i + 1] == s[i];
    }
  }

  /** `ParseInt` accepts an explicit `+`: before unsigned text it changes
      neither whether the text is accepted nor the value read. */
  lemma ParseIntPlus(s: string)
    requires |s| > 0 && s[0] != '+' && s[0] != '-'
    ensures ParseInt64("+" + s).Ok? <==> ParseInt64(s).Ok?
    ensures ParseInt64(s).Ok? ==> ParseInt64("+" + s).value == ParseInt64(s).value
  {
    assert ("+" + s)[1..] == s;
  }

  /** What an accepted `ParseInt` text consists of: an optional sign, then
      digits `ParseUint` accepts, the value negated after a `-`. */
  lemma ParseIntParts(s: string)
    requires ParseInt64(s).Ok?
    ensures var body := if s[0] == '+' || s[0] == '-' then s[1..] else s;
      && ParseUint64(body).Ok?
      && ParseInt64(s).value == if s[0] == '-' then 0 - ParseUint64(body).value as int else ParseUint64(body).value as int
  {
  }

  /** Exactly which texts `ParseInt` accepts: an optional sign, digits
      `ParseUint` accepts, and a magnitude within the int64 range for that
      sign. Leading zeros and `-0` are accepted. */
  lemma ParseIntAccepts(s: string)
    requires |s| > 0
    ensures var body := if s[0] == '+' || s[0] == '-' then s[1..] else s;
      ParseInt64(s).Ok? <==>
        (ParseUint64(body).Ok? &&
          (if s[0] == '-' then ParseUint64(body).value <= -MIN_INT64 else ParseUint64(body).value <= MAX_INT64))
  {
  }

  /** Non-canonical texts Go's `strconv.ParseInt` and `Atoi` accept. */
  lemma ParseIntExamples()
    ensures ParseInt64("007") == Ok(7)
    ensures ParseInt64("+007") == Ok(7)
    ensures ParseInt64("-007") == Ok(-7)
    ensures ParseInt64("-0") == Ok(0)
  {
    assert Value("007") == 7 by {
      assert "007"[..2] == "00" && "00"[..1] == "0" && "0"[..0] == "";
    }
    assert Value("0") == 0 by {
      assert "0"[..0] == "";
    }
    assert "+007"[1..] == "007" && "-007"[1..] == "007" && "-0"[1..] == "0";
  }

  /** Conversely to `ParseFormatInt`: accepted text with no `+`, no leading
      zero after the sign and no `-0` is exactly `FormatInt` of its value. */
  lemma FormatParseInt(s: string)
    requires ParseInt64(s).Ok?
    requires s[0] != '+'
    requires s[0] == '-' ==> |s| > 1 && s[1] != '0'
    requires s[0] != '-' ==> s[0] != '0' || |s| == 1
    ensures FormatInt(ParseInt64(s).value) == s
  {
    ParseIntParts(s);
    var n := ParseInt64(s).value;
    if s[0] == '-' {
      var body := s[1..];
      var u := Value(body);
      assert n + u == 0;
      LeadingDigitPositive(body);
      FormatValue(body);
      assert FormatInt(n) == "-" + FormatUint(u);
      assert s == "-" + body;
    } else {
      assert n == Value(s);
      FormatValue(s);
    }
  }
}

=== FILE: format.dfy ===
/** `FormatHashrate` of miner.go: the choice of a unit prefix by a top-down
    cascade of thresholds at powers of 1000, and the value scaled to it. The
    `%.2f` text rendering is not modelled. */
module Format {

  /** `math.Pow(1000, k)`. */
  function Pow1000(k: nat): (p: real)
    ensures p >= 1.0
  {
    if k == 0 then 1.0 else 1000.0 * Pow1000(k - 1)
  }

  lemma {:induction false} Pow1000Monotone(j: nat, k: nat)
    requires j <= k
    ensures Pow1000(j) <= Pow1000(k)
    decreases k - j
  {
    if j < k {
      Pow1000Monotone(j + 1, k);
    }
  }

  /** The six thresholds written out. */
  lemma Pow1000Values()
    ensures Pow1000(1) == 1000.0 && Pow1000(2) == 1000000.0 && Pow1000(3) == 1000000000.0
    ensures Pow1000(4) == 1000000000000.0 && Pow1000(5) == 1000000000000000.0
    ensures Pow1000(6) == 1000000000000000000.0
  {
    assert Pow1000(1) == 1000.0;
    assert Pow1000(2) == 1000000.0;
    assert Pow1000(3) == 1000000000.0;
    assert Pow1000(4) == 1000000000000.0;
    assert Pow1000(5) == 1000000000000000.0;
  }

  /** The units the cascade can pick, smallest first. */
  datatype Unit = Plain | Kilo | Mega | Giga | Tera | Peta {

    /** The power of 1000 the unit stands for. */
    function Exponent(): nat {
      match this
      case Plain => 0
      case Kilo => 1
      case Mega => 2
      case Giga => 3
      case Tera => 4
      case Peta => 5
    }

    /** The letter appended after the number. */
    function Suffix(): string {
      match this
      case Plain => ""
      case Kilo => "K"
      case Mega => "M"
      case Giga => "G"
      case Tera => "T"
      case Peta => "P"
    }
  }

  /** A hashrate as printed: a scaled number and its unit. */
  datatype Rendered = Rendered(scaled: real, unit: Unit)

  /** `h` lies in the band of exponent `k`: at least 1000^k (no lower bound
      for k = 0) and below 1000^(k+1) (no upper bound for k = 5). */
  predicate InBand(h: real, k: nat) {
    (k == 0 || Pow1000(k) <= h) && (k >= 5 || h < Pow1000(k + 1))
  }

  /** The cascade of lines 150-162, tested from `P` down to no suffix. */
  function FormatHashrate(h: real): (r: Rendered)
    ensures InBand(h, r.unit.Exponent())
    ensures r.scaled * Pow1000(r.unit.Exponent()) == h
    ensures r.unit == Plain <==> h < 1000.0
    ensures r.unit != Plain ==> 1.0 <= r.scaled
    ensures r.unit != Peta ==> r.scaled < 1000.0
  {
    Pow1000Values();
    if h >= Pow1000(5) then Rendered(h / Pow1000(5), Peta)
    else if h >= Pow1000(4) then Rendered(h / Pow1000(4), Tera)
    else if h >= Pow1000(3) then Rendered(h / Pow1000(3), Giga)
    else if h >= Pow1000(2) then Rendered(h / Pow1000(2), Mega)
    else if h >= 1000.0 then Rendered(h / 1000.0, Kilo)
    else Rendered(h, Plain)
  }

  /** The bands do not overlap. */
  lemma BandUnique(h: real, j: nat, k: nat)
    requires j <= 5 && k <= 5
    requires InBand(h, j) && InBand(h, k)
    ensures j == k
  {
    if j < k {
      Pow1000Monotone(j + 1, k);
    } else if k < j {
      Pow1000Monotone(k + 1, j);
    }
  }

  /** Exactly one branch fires: the unit chosen is the one whose band holds
      `h`, and no other. */
  lemma FormatPicksBand(h: real, k: nat)
    requires k <= 5
    ensures FormatHashrate(h).unit.Exponent() == k <==> InBand(h, k)
  {
    var r := FormatHashrate(h);
    if InBand(h, k) {
      BandUnique(h, r.unit.Exponent(), k);
    }
  }

  /** The renderings the cascade gives at the band edges. */
  lemma FormatEdges()
    ensures FormatHashrate(0.0) == Rendered(0.0, Plain)
    ensures FormatHashrate(999.0) == Rendered(999.0, Plain)
    ensures FormatHashrate(1000.0) == Rendered(1.0, Kilo)
    ensures FormatHashrate(1000000.0) == Rendered(1.0, Mega)
    ensures FormatHashrate(1000000000000000.0) == Rendered(1.0, Peta)
    ensures FormatHashrate(999.0).unit.Suffix() == ""
    ensures FormatHashrate(1000.0).unit.Suffix() == "K"
    ensures FormatHashrate(1000000.0).unit.Suffix() == "M"
    ensures FormatHashrate(1000000000.0).unit.Suffix() == "G"
    ensures FormatHashrate(1000000000000.0).unit.Suffix() == "T"
    ensures FormatHashrate(1000000000000000.0).unit.Suffix() == "P"
  {
  }
}

=== FILE: machine.dfy ===
/** Go's fixed-width integers. Dafny integers are unbounded, so the wrap-around
    of `uint64` addition and `int64` subtraction is written out here. */
module Machine {

  const TWO_64: int := 0x1_0000_0000_0000_0000
  const MAX_UINT64: int := 0xFFFF_FFFF_FFFF_FFFF
  const MIN_INT64: int := -0x8000_0000_0000_0000
  const MAX_INT64: int := 0x7FFF_FFFF_FFFF_FFFF

  type uint64 = x: int | 0 <= x <= 0xFFFF_FFFF_FFFF_FFFF
  type int64 = x: int | -0x8000_0000_0000_0000 <= x <= 0x7FFF_FFFF_FFFF_FFFF

  /** `a + b` on Go `uint64`: a sum past the top wraps round once. */
  function AddU64(a: uint64, b: uint64): (r: uint64)
    ensures r == (a + b) % TWO_64
  {
    if a + b <= MAX_UINT64 then a + b else a + b - TWO_64
  }

  /** `a - b` on Go `int64`: the two's-complement difference, i.e. the one
      int64 congruent to the true difference modulo 2^64. */
  function SubI64(a: int64, b: int64): (r: int64)
    ensures (r - (a - b)) % TWO_64 == 0
    ensures MIN_INT64 <= a - b <= MAX_INT64 ==> r == a - b
  {
    var d := a - b;
    if d > MAX_INT64 then d - TWO_64
    else if d < MIN_INT64 then d + TWO_64
    else d
  }

  /** Reducing an accumulator before adding to it does not change the sum modulo 2^64. */
  lemma ModAdd(x: nat, d: nat)
    ensures (x % TWO_64 + d) % TWO_64 == (x + d) % TWO_64
  {
    var q := x / TWO_64;
    assert x == q * TWO_64 + x % TWO_64;
    assert x + d == q * TWO_64 + (x % TWO_64 + d);
  }
}

=== FILE: rates.dfy ===
/** The conversions at the end of `GetShares`: summed share difficulty to a
    hashrate, and the rejected-share rate. Go's float64 arithmetic is taken
    as exact real arithmetic. */
module Rates {

  import opened Results
  import opened Machine

  /** Expected hashes per unit of difficulty for Blake2b. */
  const ConstBlake2B: int := 4295032833000
  /** The divisor of the hashrate expression of line 141. */
  const StepBlake2B: int := 180

  /** `float64(Shares) * ConstBlake2B / StepBlake2B / 1000`. */
  function Hashrate(difficulty: nat): (r: real)
    ensures r >= 0.0
    ensures r == 0.0 <==> difficulty == 0
  {
    difficulty as real * ConstBlake2B as real / StepBlake2B as real / 1000.0
  }

  /** More difficulty never gives a lower hashrate. */
  lemma HashrateMonotone(a: nat, b: nat)
    requires a <= b
    ensures Hashrate(a) <= Hashrate(b)
  {
  }

  /** The hashrate of a sum is the sum of the hashrates. */
  lemma HashrateAdditive(a: nat, b: nat)
    ensures Hashrate(a + b) == Hashrate(a) + Hashrate(b)
  {
  }

  /** The expression of line 142 for a nonzero share count: the invalid
      share count times the mean difficulty, where the mean is the uint64
      quotient `Shares / numShares`, converted like the hashrate. */
  function InvalidRate(shares: uint64, numShares: uint64, numInvalidShares: uint64): real
    requires numShares > 0
  {
    numInvalidShares as real * (shares / numShares) as real
      * ConstBlake2B as real / StepBlake2B as real / 1000.0
  }

  /** `badrate` with the zero-share case guarded: undefined (None) exactly
      when no share was counted, otherwise the hashrate of the rejected
      shares at the mean difficulty. */
  function Badrate(shares: uint64, numShares: uint64, numInvalidShares: uint64): (r: Option<real>)
    ensures r.None? <==> numShares == 0
    ensures r.Some? ==> r.value >= 0.0
    ensures r.Some? && numInvalidShares == 0 ==> r.value == 0.0
    ensures r.Some? && numInvalidShares <= numShares ==> r.value <= Hashrate(shares)
  {
    if numShares == 0 then None
    else
      RejectedBelowTotal(shares, numShares, numInvalidShares);
      Some(InvalidRate(shares, numShares, numInvalidShares))
  }

  /** Rejected shares at the mean difficulty never outweigh all shares. */
  lemma RejectedBelowTotal(shares: uint64, numShares: uint64, numInvalidShares: uint64)
    requires numShares > 0
    ensures numInvalidShares <= numShares ==> InvalidRate(shares, numShares, numInvalidShares) <= Hashrate(shares)
    ensures InvalidRate(shares, numShares, numInvalidShares) == Hashrate(numInvalidShares * (shares / numShares))
  {
    var q: nat := shares / numShares;
    var n: nat := numInvalidShares;
    InvalidRateIsHashrate(shares, numShares, numInvalidShares);
    if n <= numShares {
      MeanBelowTotal(shares, numShares, n);
      HashrateMonotone(n * q, shares);
    }
  }

  /** The badrate expression is the hashrate of the rejected shares at the
      truncated mean difficulty. */
  lemma InvalidRateIsHashrate(shares: uint64, numShares: uint64, numInvalidShares: uint64)
    requires numShares > 0
    ensures InvalidRate(shares, numShares, numInvalidShares) == Hashrate(numInvalidShares * (shares / numShares))
  {
    var q: nat := shares / numShares;
    var n: nat := numInvalidShares;
    ScaledHashrate(n, q);
  }

  /** The hashrate of `n` shares of difficulty `q`, computed in reals. */
  lemma ScaledHashrate(n: nat, q: nat)
    ensures n as real * q as real * ConstBlake2B as real / StepBlake2B as real / 1000.0 == Hashrate(n * q)
  {
    assert (n * q) as real == n as real * q as real;
  }

  /** At most `numShares` shares of the truncated mean difficulty weigh no
      more than all the shares. */
  lemma MeanBelowTotal(shares: nat, numShares: nat, numInvalidShares: nat)
    requires 0 < numShares && numInvalidShares <= numShares
    ensures numInvalidShares * (shares / numShares) <= shares
  {
    var q := shares / numShares;
    assert numShares * q <= shares;
    MulLeft(numInvalidShares, numShares, q);
  }

  /** Multiplication by a natural number keeps the order. */
  lemma MulLeft(a: nat, b: nat, q: nat)
    requires a <= b
    ensures a * q <= b * q
  {
    var d: nat := b - a;
    assert b * q == a * q + d * q;
  }

  /** `badrate` exactly as line 142 computes it: `Shares / numShares` is an
      unsigned integer division, which panics when no share was counted. */
  function BadrateAsWritten(shares: uint64, numShares: uint64, numInvalidShares: uint64): (r: Result<real>)
    ensures r.Err? <==> numShares == 0
    ensures r.Err? ==> r.error == DivideByZero
    ensures r.Ok? ==> Badrate(shares, numShares, numInvalidShares) == Some(r.value)
  {
    if numShares == 0 then Err(DivideByZero)
    else Ok(InvalidRate(shares, numShares, numInvalidShares))
  }

  /** The as-written expression fails on every input with no counted share,
      where the guarded one reports an undefined rate, and the two agree
      everywhere else. */
  lemma BadrateGuardAgrees(shares: uint64, numShares: uint64, numInvalidShares: uint64)
    ensures BadrateAsWritten(shares, numShares, numInvalidShares).Err? <==> numShares == 0
    ensures numShares == 0 ==> Badrate(shares, numShares, numInvalidShares).None?
    ensures numShares > 0 ==>
      BadrateAsWritten(shares, numShares, numInvalidShares) == Ok(Badrate(shares, numShares, numInvalidShares).value)
  {
  }
}

=== FILE: redis.dfy ===
/** The part of a Redis database that miner.go reads: a keyspace visited by
    `SCAN` and a hash stored under each key, read field by field with `HGET`. */
module Redis {

  import opened Results

  /** One logical database: its keys in the order a complete `SCAN` visits
      them, and the hash (field to value) stored under each key. */
  datatype Store = Store(keys: seq<string>, hashes: map<string, map<string, string>>)

  /** `HGET key field`; a missing key or field is `redis.Nil`. */
  function HGet(db: Store, key: string, field: string): Result<string>
  {
    if key in db.hashes && field in db.hashes[key] then Ok(db.hashes[key][field])
    else Err(Nil(key, field))
  }

  /** The keys of `keys` that start with `prefix`, in their order. */
  function Matching(keys: seq<string>, prefix: string): (r: seq<string>)
    ensures forall k :: k in r <==> k in keys && prefix <= k
    ensures |r| <= |keys|
    decreases |keys|
  {
    if |keys| == 0 then []
    else (if prefix <= keys[0] then [keys[0]] else []) + Matching(keys[1..], prefix)
  }

  /** Matching distributes over concatenation: every occurrence is kept, in
      order, so a duplicated key stays duplicated. */
  lemma {:induction false} MatchingAppend(a: seq<string>, b: seq<string>, prefix: string)
    ensures Matching(a + b, prefix) == Matching(a, prefix) + Matching(b, prefix)
    decreases |a|
  {
    if |a| == 0 {
      assert a + b == b;
    } else {
      assert (a + b)[0] == a[0];
      assert (a + b)[1..] == a[1..] + b;
      MatchingAppend(a[1..], b, prefix);
    }
  }

  /** A single key is kept exactly when it starts with the prefix. */
  lemma MatchingOne(k: string, prefix: string)
    ensures Matching([k], prefix) == if prefix <= k then [k] else []
  {
    assert [k][1..] == [];
  }

  /** A complete `SCAN` with pattern `prefix*`: every key of the database that
      starts with `prefix`, each occurrence in `keys`, in order. */
  function Scan(db: Store, prefix: string): seq<string>
  {
    Matching(db.keys, prefix)
  }
}

=== FILE: results.dfy ===
/** Option and Result types standing in for Go's `(value, err)` returns, and
    the short-circuiting traversal that both scan loops of miner.go perform:
    visit the keys in order and give up on the first error, with no partial
    result. */
module Results {

  datatype Option<+T> = None | Some(value: T)

  /** Everything that ends a call early. */
  datatype Error =
      /** `HGet` found no such key or field (`redis.Nil`). */
    | Nil(key: string, field: string)
      /** `s[index]` on a key with too few `.`-separated parts (a Go run-time panic). */
    | IndexOutOfRange(key: string, index: nat)
      /** `strconv` could not read `text` as a decimal integer of the required width. */
    | NumError(text: string)
      /** Integer division by a zero share count (a Go run-time panic). */
    | DivideByZero

  datatype Result<+T> = Ok(value: T) | Err(error: Error) {

    predicate IsFailure() {
      Err?
    }

    function PropagateFailure<U>(): Result<U>
      requires Err?
    {
      Err(error)
    }

    function Extract(): T
      requires Ok?
    {
      value
    }
  }

  /** `f` succeeds on the elements before `i` and fails on `xs[i]`. */
  predicate FirstFailure<T, U>(xs: seq<T>, f: T -> Result<U>, i: nat)
    requires i < |xs|
  {
    f(xs[i]).Err? && forall j | 0 <= j < i :: f(xs[j]).Ok?
  }

  /** Applies `f` to every element in order; the first failure aborts the
      whole traversal and is what it returns. */
  function Traverse<T, U>(xs: seq<T>, f: T -> Result<U>): (r: Result<seq<U>>)
    ensures r.Ok? <==> forall i | 0 <= i < |xs| :: f(xs[i]).Ok?
    ensures r.Ok? ==> |r.value| == |xs| && forall i | 0 <= i < |xs| :: r.value[i] == f(xs[i]).value
    ensures r.Err? ==> exists i | 0 <= i < |xs| :: FirstFailure(xs, f, i) && f(xs[i]).error == r.error
    decreases |xs|
  {
    if |xs| == 0 then Ok([])
    else
      var head :- f(xs[0]);
      var tail := Traverse(xs[1..], f);
      if tail.Err? then
        assert forall j | 0 <= j < |xs| - 1 :: xs[1..][j] == xs[j + 1];
        var i :| 0 <= i < |xs| - 1 && FirstFailure(xs[1..], f, i) && f(xs[1..][i]).error == tail.error;
        assert FirstFailure(xs, f, i + 1);
        Err(tail.error)
      else
        Ok([head] + tail.value)
  }

  /** The values held by the `Some` elements, in order. */
  function Somes<T>(opts: seq<Option<T>>): (vs: seq<T>)
    ensures |vs| <= |opts|
    ensures forall v | v in vs :: Some(v) in opts
    decreases |opts|
  {
    if |opts| == 0 then []
    else (if opts[0].Some? then [opts[0].value] else []) + Somes(opts[1..])
  }
}

=== FILE: seqs.dfy ===
/** Weighted sums over sequences, the unbounded reference values that the
    wrapping counters of miner.go are compared against. */
module Seqs {

  /** The sum of `w` over `s`, accumulated front to back like the Go loop. */
  function Sum<T>(s: seq<T>, w: T -> nat): nat
    decreases |s|
  {
    if |s| == 0 then 0 else Sum(s[..|s| - 1], w) + w(s[|s| - 1])
  }

  lemma {:induction false} SumAppend<T>(a: seq<T>, b: seq<T>, w: T -> nat)
    ensures Sum(a + b, w) == Sum(a, w) + Sum(b, w)
    decreases |b|
  {
    if |b| == 0 {
      assert a + b == a;
    } else {
      var n := |b| - 1;
      assert (a + b)[..|a + b| - 1] == a + b[..n];
      assert (a + b)[|a + b| - 1] == b[n];
      SumAppend(a, b[..n], w);
    }
  }

  /** Removing the element at `i` leaves the rest of the multiset. */
  lemma RemoveAt<T>(b: seq<T>, i: nat)
    requires i < |b|
    ensures b == b[..i] + [b[i]] + b[i + 1..]
    ensures multiset(b) == multiset(b[..i] + b[i + 1..]) + multiset{b[i]}
  {
    assert b == b[..i] + [b[i]] + b[i + 1..];
  }

  /** A sum does not depend on the order of its terms. */
  lemma {:induction false} SumPermutation<T>(a: seq<T>, b: seq<T>, w: T -> nat)
    requires multiset(a) == multiset(b)
    ensures Sum(a, w) == Sum(b, w)
    decreases |a|
  {
    if |a| == 0 {
      assert |b| == |multiset(b)| == 0;
    } else {
      var n := |a| - 1;
      var x := a[n];
      assert x in multiset(b);
      var i :| 0 <= i < |b| && b[i] == x;
      DropMatching(a, b, i);
      SumPermutation(a[..n], b[..i] + b[i + 1..], w);
      SumRemoved(b, i, w);
    }
  }

  /** Dropping the last element of `a` and an equal element of `b` keeps
      two equal multisets equal. */
  lemma DropMatching<T>(a: seq<T>, b: seq<T>, i: nat)
    requires multiset(a) == multiset(b) && 0 < |a| && i < |b| && b[i] == a[|a| - 1]
    ensures multiset(a[..|a| - 1]) == multiset(b[..i] + b[i + 1..])
  {
    var n := |a| - 1;
    assert a == a[..n] + [a[n]];
    RemoveAt(b, i);
    assert multiset(a[..n]) == multiset(a) - multiset{a[n]};
  }

  /** Dropping the first element of `a` and an equal element of `b` keeps
      two equal multisets equal. */
  lemma DropFirstMatching<T>(a: seq<T>, b: seq<T>, i: nat)
    requires multiset(a) == multiset(b) && 0 < |a| && i < |b| && b[i] == a[0]
    ensures multiset(a[1..]) == multiset(b[..i] + b[i + 1..])
  {
    assert a == [a[0]] + a[1..];
    RemoveAt(b, i);
    assert multiset(a[1..]) == multiset(a) - multiset{a[0]};
  }

  /** The sum without the element at `i`, plus that element's weight. */
  lemma SumRemoved<T>(b: seq<T>, i: nat, w: T -> nat)
    requires i < |b|
    ensures Sum(b, w) == Sum(b[..i] + b[i + 1..], w) + w(b[i])
  {
    RemoveAt(b, i);
    SumAppend(b[..i] + [b[i]], b[i + 1..], w);
    SumAppend(b[..i], [b[i]], w);
    SumAppend(b[..i], b[i + 1..], w);
    assert Sum([b[i]], w) == w(b[i]) by {
      assert [b[i]][..0] == [];
    }
  }
}

=== FILE: shares.dfy ===
/** `GetShares` of miner.go: read the share records of one worker, keep those
    that pass the time filter, count and sum them in uint64 counters, and
    derive `hashrate`, `badrate` and `badshare`. */
module Shares {

  import opened Results
  import opened Machine
  import opened Seqs
  import opened Decimal
  import opened Strings
  import opened Redis
  import opened Rates

  /** One retained share: its time (from the key), its `valid` flag and its
      `difficulty` (from the hash). */
  datatype Share = Share(time: int64, valid: int64, difficulty: uint64)

  /** The four uint64 accumulators of lines 105-108. */
  datatype Counters = Counters(shares: uint64, numShares: uint64, invalidShares: uint64, numInvalidShares: uint64)

  /** The three entries of `shareList`; `badrate` is None where the source
      divides by a zero share count. */
  datatype ShareReport = ShareReport(hashrate: real, badrate: Option<real>, badshare: uint64)

  /** The prefix that the `SCAN` pattern `"{clientID}.{workerID}.*"` selects. */
  function SharePattern(clientID: string, workerID: string): string
  {
    clientID + "." + workerID + "."
  }

  /** The time text of a share key: its third `.`-separated part, or None
      where `s[2]` would panic. */
  function TimeText(key: string): Option<string>
  {
    Field(key, '.', 2)
  }

  /** The filter of lines 114-117 as written: a share is skipped when its
      time is at most `currentTime - share_time`, an int64 difference. */
  predicate Skipped(currentTime: int64, shareTime: int64): (skip: bool)
    ensures currentTime >= 0 && shareTime >= 0 ==> (skip <==> 2 * shareTime <= currentTime)
    ensures shareTime > currentTime >= 0 ==> !skip
  {
    shareTime <= SubI64(currentTime, shareTime)
  }

  /** The share time a key carries: its third part read as an int64, or
      None where that part is missing or does not parse. */
  function KeyTime(key: string): Option<int64>
  {
    match TimeText(key)
    case None => None
    case Some(text) =>
      match ParseInt64(text)
      case Ok(t) => Some(t)
      case Err(_) => None
  }

  /** The key carries a time and that time passes the filter. */
  predicate Passes(currentTime: int64, key: string)
  {
    KeyTime(key).Some? && !Skipped(currentTime, KeyTime(key).value)
  }

  /** One pass of the loop body of lines 112-133 up to the accumulation:
      None for a skipped share, the share for a retained one, or the first
      error. */
  function ReadShare(db: Store, currentTime: int64, key: string): (r: Result<Option<Share>>)
    ensures r.Ok? ==> KeyTime(key).Some?
    ensures r.Ok? ==> (r.value.Some? <==> Passes(currentTime, key))
  {
    match TimeText(key)
    case None => Err(IndexOutOfRange(key, 2))
    case Some(text) =>
      var shareTime :- ParseInt64(text);
      if Skipped(currentTime, shareTime) then Ok(None)
      else
        var validText :- HGet(db, key, "valid");
        var difficultyText :- HGet(db, key, "difficulty");
        var valid :- ParseInt64(validText);
        var difficulty :- ParseUint64(difficultyText);
        Ok(Some(Share(shareTime, valid, difficulty)))
  }

  /** A skipped share is decided from its key alone: none of its fields is
      read, so a missing or malformed field cannot make it fail. */
  lemma SkippedShareNotRead(db: Store, currentTime: int64, key: string, shareTime: int64)
    requires TimeText(key).Some? && ParseInt64(TimeText(key).value) == Ok(shareTime)
    requires Skipped(currentTime, shareTime)
    ensures ReadShare(db, currentTime, key) == Ok(None)
  {
  }

  /** A retained share carries the time of its key, which passed the filter,
      and the parsed values of its `valid` and `difficulty` fields. */
  lemma RetainedShareFields(db: Store, currentTime: int64, key: string)
    requires ReadShare(db, currentTime, key).Ok? && ReadShare(db, currentTime, key).value.Some?
    ensures var s := ReadShare(db, currentTime, key).value.value;
      && TimeText(key).Some? && ParseInt64(TimeText(key).value) == Ok(s.time)
      && !Skipped(currentTime, s.time)
      && HGet(db, key, "valid").Ok? && ParseInt64(HGet(db, key, "valid").value) == Ok(s.valid)
      && HGet(db, key, "difficulty").Ok? && ParseUint64(HGet(db, key, "difficulty").value) == Ok(s.difficulty)
  {
  }

  /** Conversely, a share whose key time parses and passes the filter, and
      whose `valid` and `difficulty` fields read and parse, is kept with
      exactly those values. */
  lemma ReadShareKeeps(db: Store, currentTime: int64, key: string, shareTime: int64, valid: int64, difficulty: uint64)
    requires TimeText(key).Some? && ParseInt64(TimeText(key).value) == Ok(shareTime)
    requires !Skipped(currentTime, shareTime)
    requires HGet(db, key, "valid").Ok? && ParseInt64(HGet(db, key, "valid").value) == Ok(valid)
    requires HGet(db, key, "difficulty").Ok? && ParseUint64(HGet(db, key, "difficulty").value) == Ok(difficulty)
    ensures ReadShare(db, currentTime, key) == Ok(Some(Share(shareTime, valid, difficulty)))
  {
  }

  /** For times on or after the epoch the int64 difference cannot wrap, and
      the filter keeps exactly the shares later than half of `currentTime`. */
  lemma SkippedMeans(currentTime: int64, shareTime: int64)
    requires currentTime >= 0 && shareTime >= 0
    ensures Skipped(currentTime, shareTime) <==> 2 * shareTime <= currentTime
  {
  }

  /** Where the difference does wrap the filter departs from that reading: a
      share at time -1 is kept at the largest `currentTime`. */
  lemma SkippedWraps()
    // the doubled reading `2 * share_time <= currentTime` would skip it
    ensures !Skipped(MAX_INT64, -1)
  {
  }

  /** A share one year old is kept: the filter as written does not bound the
      age of a share by any window. */
  lemma OldShareRetained(currentTime: int64)
    requires 2 * 31536000 < currentTime
    ensures !Skipped(currentTime, currentTime - 31536000)
  {
  }

  /** The shares a key sequence yields, in visit order (the unbounded
      reference for the counters). */
  function Retained(db: Store, currentTime: int64, keys: seq<string>): (kept: seq<Share>)
    ensures forall s | s in kept :: !Skipped(currentTime, s.time)
    decreases |keys|
  {
    if |keys| == 0 then []
    else
      var head := (match ReadShare(db, currentTime, keys[0])
        case Ok(Some(s)) => RetainedShareFields(db, currentTime, keys[0]); [s]
        case _ => []);
      head + Retained(db, currentTime, keys[1..])
  }

  lemma {:induction false} RetainedAppend(db: Store, currentTime: int64, a: seq<string>, b: seq<string>)
    ensures Retained(db, currentTime, a + b) == Retained(db, currentTime, a) + Retained(db, currentTime, b)
    decreases |a|
  {
    if |a| == 0 {
      assert a + b == b;
    } else {
      assert (a + b)[0] == a[0];
      assert (a + b)[1..] == a[1..] + b;
      RetainedAppend(db, currentTime, a[1..], b);
    }
  }

  /** Visiting the keys in another order retains the same shares. */
  lemma {:induction false} RetainedPermutation(db: Store, currentTime: int64, a: seq<string>, b: seq<string>)
    requires multiset(a) == multiset(b)
    ensures multiset(Retained(db, currentTime, a)) == multiset(Retained(db, currentTime, b))
    decreases |a|
  {
    if |a| == 0 {
      assert |b| == |multiset(b)| == 0;
    } else {
      var x := a[0];
      assert x in multiset(b);
      var i :| 0 <= i < |b| && b[i] == x;
      DropFirstMatching(a, b, i);
      RetainedPermutation(db, currentTime, a[1..], b[..i] + b[i + 1..]);
      RetainedAround(db, currentTime, b, i);
      RetainedAppend(db, currentTime, [x], a[1..]);
      assert a == [x] + a[1..];
      RotateMultiset(Retained(db, currentTime, [x]), Retained(db, currentTime, a[1..]),
        Retained(db, currentTime, b[..i]), Retained(db, currentTime, b[i + 1..]));
    }
  }

  /** The shares kept from `b` split around position `i`, with and without
      the key at `i`. */
  lemma RetainedAround(db: Store, currentTime: int64, b: seq<string>, i: nat)
    requires i < |b|
    ensures Retained(db, currentTime, b) ==
      Retained(db, currentTime, b[..i]) + Retained(db, currentTime, [b[i]]) + Retained(db, currentTime, b[i + 1..])
    ensures Retained(db, currentTime, b[..i] + b[i + 1..]) ==
      Retained(db, currentTime, b[..i]) + Retained(db, currentTime, b[i + 1..])
  {
    var front, back := b[..i], b[i + 1..];
    assert b == front + [b[i]] + back;
    RetainedAppend(db, currentTime, front + [b[i]], back);
    RetainedAppend(db, currentTime, front, [b[i]]);
    RetainedAppend(db, currentTime, front, back);
  }


  /** Moving a block to the front of the others keeps the multiset. */
  lemma RotateMultiset(kx: seq<Share>, rest: seq<Share>, kf: seq<Share>, kb: seq<Share>)
    requires multiset(rest) == multiset(kf + kb)
    ensures multiset(kx + rest) == multiset(kf + kx + kb)
  {
  }

  /** The keys whose time passes the filter, in visit order. */
  function Passing(currentTime: int64, keys: seq<string>): seq<string>
    decreases |keys|
  {
    if |keys| == 0 then []
    else (if Passes(currentTime, keys[0]) then [keys[0]] else []) + Passing(currentTime, keys[1..])
  }

  /** `s` is what the fields of `key` hold: its key time and its parsed
      `valid` and `difficulty`. */
  predicate StoredAs(db: Store, key: string, s: Share)
  {
    && KeyTime(key) == Some(s.time)
    && HGet(db, key, "valid").Ok? && ParseInt64(HGet(db, key, "valid").value) == Ok(s.valid)
    && HGet(db, key, "difficulty").Ok? && ParseUint64(HGet(db, key, "difficulty").value) == Ok(s.difficulty)
  }

  /** When every key reads, exactly one share is kept per key that passes
      the filter, in order, holding that key's fields. */
  lemma {:induction false} RetainedExactly(db: Store, currentTime: int64, keys: seq<string>)
    requires forall k | k in keys :: ReadShare(db, currentTime, k).Ok?
    ensures |Retained(db, currentTime, keys)| == |Passing(currentTime, keys)|
    ensures forall i | 0 <= i < |Passing(currentTime, keys)| ::
      StoredAs(db, Passing(currentTime, keys)[i], Retained(db, currentTime, keys)[i])
    decreases |keys|
  {
    if |keys| > 0 {
      var rest := keys[1..];
      ReadsSplit(db, currentTime, keys);
      RetainedExactly(db, currentTime, rest);
      var head, passHead := RetainedFirst(db, currentTime, keys);
      var keptRest, passRest := Retained(db, currentTime, rest), Passing(currentTime, rest);
      assert Retained(db, currentTime, keys) == head + keptRest;
      assert Passing(currentTime, keys) == passHead + passRest;
      PrefixStored(db, passHead, head, passRest, keptRest);
    }
  }

  /** The headline count: when every key reads, `numShares` is the number
      of keys whose time passes the filter, modulo 2^64. */
  lemma CountsPassing(db: Store, currentTime: int64, keys: seq<string>)
    requires forall k | k in keys :: ReadShare(db, currentTime, k).Ok?
    ensures Tally(Retained(db, currentTime, keys)).numShares == |Passing(currentTime, keys)| % TWO_64
  {
    RetainedExactly(db, currentTime, keys);
  }

  /** Every key reads: so does the first, and so does every later one. */
  lemma ReadsSplit(db: Store, currentTime: int64, keys: seq<string>)
    requires |keys| > 0 && forall k | k in keys :: ReadShare(db, currentTime, k).Ok?
    ensures ReadShare(db, currentTime, keys[0]).Ok?
    ensures forall k | k in keys[1..] :: ReadShare(db, currentTime, k).Ok?
  {
    assert keys[0] in keys;
    assert forall k | k in keys[1..] :: k in keys;
  }

  /** What the first key contributes to `Retained` and to `Passing`, when it
      reads. */
  lemma RetainedFirst(db: Store, currentTime: int64, keys: seq<string>) returns (head: seq<Share>, passHead: seq<string>)
    requires |keys| > 0 && ReadShare(db, currentTime, keys[0]).Ok?
    ensures Retained(db, currentTime, keys) == head + Retained(db, currentTime, keys[1..])
    ensures Passing(currentTime, keys) == passHead + Passing(currentTime, keys[1..])
    ensures |head| == |passHead| <= 1
    ensures |head| == 1 ==> StoredAs(db, passHead[0], head[0])
  {
    var k := keys[0];
    passHead := if Passes(currentTime, k) then [k] else [];
    if Passes(currentTime, k) {
      RetainedShareFields(db, currentTime, k);
      head := [ReadShare(db, currentTime, k).value.value];
    } else {
      head := [];
    }
  }

  /** Position-wise agreement survives putting a matching prefix in front. */
  lemma PrefixStored(db: Store, p: seq<string>, h: seq<Share>, ps: seq<string>, ss: seq<Share>)
    requires |p| == |h| && |ps| == |ss|
    requires forall i | 0 <= i < |p| :: StoredAs(db, p[i], h[i])
    requires forall i | 0 <= i < |ps| :: StoredAs(db, ps[i], ss[i])
    ensures forall i | 0 <= i < |p + ps| :: StoredAs(db, (p + ps)[i], (h + ss)[i])
  {
    forall i | 0 <= i < |p + ps| ensures StoredAs(db, (p + ps)[i], (h + ss)[i]) {
      if i >= |p| {
        assert (p + ps)[i] == ps[i - |p|] && (h + ss)[i] == ss[i - |p|];
      }
    }
  }

  /** The outcomes of a successful traversal, with skipped keys dropped, are
      the retained shares. */
  lemma {:induction false} SomesOfReads(db: Store, currentTime: int64, keys: seq<string>, outcomes: seq<Option<Share>>)
    requires |outcomes| == |keys|
    requires forall i | 0 <= i < |keys| :: ReadShare(db, currentTime, keys[i]) == Ok(outcomes[i])
    ensures Somes(outcomes) == Retained(db, currentTime, keys)
    decreases |keys|
  {
    if |keys| > 0 {
      assert forall i | 0 <= i < |keys| - 1 :: keys[1..][i] == keys[i + 1] && outcomes[1..][i] == outcomes[i + 1];
      SomesOfReads(db, currentTime, keys[1..], outcomes[1..]);
    }
  }

  function DifficultyOf(s: Share): nat { s.difficulty }

  function InvalidOne(s: Share): nat { if s.valid == 0 then 1 else 0 }

  function InvalidDifficultyOf(s: Share): nat { if s.valid == 0 then s.difficulty else 0 }

  /** Lines 130-135 for one retained share: the invalid counters move only
      when `valid == 0`; the total counters always do. */
  function Accumulate(c: Counters, s: Share): (r: Counters)
    ensures r.numInvalidShares != c.numInvalidShares <==> s.valid == 0
    ensures s.valid != 0 ==> r.invalidShares == c.invalidShares
    ensures r.numShares != c.numShares
  {
    if s.valid == 0 then
      Counters(AddU64(c.shares, s.difficulty), AddU64(c.numShares, 1),
               AddU64(c.invalidShares, s.difficulty), AddU64(c.numInvalidShares, 1))
    else
      Counters(AddU64(c.shares, s.difficulty), AddU64(c.numShares, 1),
               c.invalidShares, c.numInvalidShares)
  }

  /** The counters after the loop: each is the unbounded count or sum over
      the retained shares, reduced modulo 2^64. `Shares` sums every
      difficulty whatever the valid flag. */
  function Tally(shares: seq<Share>): (c: Counters)
    ensures c.numShares == |shares| % TWO_64
    ensures c.shares == Sum(shares, DifficultyOf) % TWO_64
    ensures c.numInvalidShares == Sum(shares, InvalidOne) % TWO_64
    ensures c.invalidShares == Sum(shares, InvalidDifficultyOf) % TWO_64
    decreases |shares|
  {
    if |shares| == 0 then Counters(0, 0, 0, 0)
    else
      var n := |shares| - 1;
      var c := Tally(shares[..n]);
      var s := shares[n];
      TallyStep(shares, c);
      Accumulate(c, s)
  }

  /** `c` holds the four reduced counts and sums of `shares`. */
  predicate Tracks(shares: seq<Share>, c: Counters)
  {
    && c.numShares == |shares| % TWO_64
    && c.shares == Sum(shares, DifficultyOf) % TWO_64
    && c.numInvalidShares == Sum(shares, InvalidOne) % TWO_64
    && c.invalidShares == Sum(shares, InvalidDifficultyOf) % TWO_64
  }

  /** One pass of the loop keeps the counters in step with the shares seen. */
  lemma TallyStep(shares: seq<Share>, c: Counters)
    requires |shares| > 0 && Tracks(shares[..|shares| - 1], c)
    ensures Tracks(shares, Accumulate(c, shares[|shares| - 1]))
  {
    ModAdd(|shares| - 1, 1);
    SumStep(shares, DifficultyOf);
    SumStep(shares, InvalidOne);
    SumStep(shares, InvalidDifficultyOf);
  }

  /** Adding the last term to the reduced sum of the others gives the reduced sum. */
  lemma SumStep(shares: seq<Share>, w: Share -> nat)
    requires |shares| > 0
    ensures (Sum(shares[..|shares| - 1], w) % TWO_64 + w(shares[|shares| - 1])) % TWO_64
      == Sum(shares, w) % TWO_64
  {
    var n := |shares| - 1;
    ModAdd(Sum(shares[..n], w), w(shares[n]));
  }

  lemma {:induction false} InvalidWithinTotal(shares: seq<Share>)
    ensures Sum(shares, InvalidOne) <= |shares|
    ensures Sum(shares, InvalidDifficultyOf) <= Sum(shares, DifficultyOf)
    decreases |shares|
  {
    if |shares| > 0 {
      InvalidWithinTotal(shares[..|shares| - 1]);
    }
  }

  /** With fewer than 2^64 shares kept, the rejected-share count never
      exceeds the share count, whatever the difficulties. */
  lemma TallyCountBound(shares: seq<Share>)
    requires |shares| <= MAX_UINT64
    ensures Tally(shares).numInvalidShares <= Tally(shares).numShares
  {
    InvalidWithinTotal(shares);
    var c := Tally(shares);
    var count := Sum(shares, InvalidOne);
    assert c.numShares == |shares| by { SmallMod(|shares|); }
    assert c.numInvalidShares == count by { SmallMod(count); }
  }

  /** Without overflow of the difficulty sum, the rejected difficulty never
      exceeds the total difficulty. */
  lemma TallySumBound(shares: seq<Share>)
    requires Sum(shares, DifficultyOf) <= MAX_UINT64
    ensures Tally(shares).invalidShares <= Tally(shares).shares
  {
    InvalidWithinTotal(shares);
    var c := Tally(shares);
    var total := Sum(shares, DifficultyOf);
    var invalid := Sum(shares, InvalidDifficultyOf);
    assert c.shares == total by { SmallMod(total); }
    assert c.invalidShares == invalid by { SmallMod(invalid); }
  }

  lemma SmallMod(x: nat)
    requires x <= MAX_UINT64
    ensures x % TWO_64 == x
  {
  }

  /** Once the total difficulty passes 2^64 the bound fails: a valid share
      of difficulty 2^64 - 1 and a rejected share of difficulty 1 leave
      `Shares` at 0 and `invalidShares` at 1. */
  lemma TallyWraps()
    ensures var c := Tally([Share(0, 1, MAX_UINT64), Share(0, 0, 1)]);
      c.shares == 0 && c.invalidShares == 1
  {
    var shares := [Share(0, 1, MAX_UINT64), Share(0, 0, 1)];
    assert shares[..1] == [Share(0, 1, MAX_UINT64)];
    assert shares[..1][..0] == [];
  }

  /** The counters do not depend on the order of the shares. */
  lemma TallyPermutation(a: seq<Share>, b: seq<Share>)
    requires multiset(a) == multiset(b)
    ensures Tally(a) == Tally(b)
  {
    assert |a| == |multiset(a)| == |multiset(b)| == |b|;
    SumPermutation(a, b, DifficultyOf);
    SumPermutation(a, b, InvalidOne);
    SumPermutation(a, b, InvalidDifficultyOf);
  }

  /** Lines 141-143 from the final counters. */
  function Summarize(c: Counters): ShareReport
  {
    ShareReport(Hashrate(c.shares), Badrate(c.shares, c.numShares, c.numInvalidShares), c.numInvalidShares)
  }

  /** The share report of the keys a scan returned, visited in order; the
      first failing key aborts with no partial result. */
  function SharesOf(db: Store, currentTime: int64, keys: seq<string>): (r: Result<ShareReport>)
    ensures r.Ok? <==> forall k | k in keys :: ReadShare(db, currentTime, k).Ok?
    ensures r.Err? ==> exists i | 0 <= i < |keys| ::
      ReadShare(db, currentTime, keys[i]) == Err(r.error)
      && forall j | 0 <= j < i :: ReadShare(db, currentTime, keys[j]).Ok?
    ensures r.Ok? ==> var kept := Retained(db, currentTime, keys);
      && r.value.badshare == Sum(kept, InvalidOne) % TWO_64
      && r.value.hashrate == Hashrate(Sum(kept, DifficultyOf) % TWO_64)
      && (r.value.badrate.None? <==> |kept| % TWO_64 == 0)
      && r.value.badrate == Badrate(Sum(kept, DifficultyOf) % TWO_64, |kept| % TWO_64, Sum(kept, InvalidOne) % TWO_64)
  {
    var read := (k: string) => ReadShare(db, currentTime, k);
    var outcomes :- Traverse(keys, read);
    SomesOfReads(db, currentTime, keys, outcomes);
    Ok(Summarize(Tally(Somes(outcomes))))
  }

  /** `GetShares(clientID, workerID, conn)` at time `currentTime`. */
  function GetShares(db: Store, clientID: string, workerID: string, currentTime: int64): (r: Result<ShareReport>)
    ensures var keys := Scan(db, SharePattern(clientID, workerID));
      r.Ok? <==> forall k | k in keys :: ReadShare(db, currentTime, k).Ok?
  {
    SharesOf(db, currentTime, Scan(db, SharePattern(clientID, workerID)))
  }

  /** On success `badrate` is undefined exactly when the number of scanned
      keys that pass the filter is 0 modulo 2^64. */
  lemma GetSharesUndefinedRate(db: Store, clientID: string, workerID: string, currentTime: int64)
    ensures var keys := Scan(db, SharePattern(clientID, workerID));
      var r := GetShares(db, clientID, workerID, currentTime);
      r.Ok? ==> (r.value.badrate.None? <==> |Passing(currentTime, keys)| % TWO_64 == 0)
  {
    var keys := Scan(db, SharePattern(clientID, workerID));
    if GetShares(db, clientID, workerID, currentTime).Ok? {
      RetainedExactly(db, currentTime, keys);
    }
  }

  /** Whether the call succeeds, and its report when it does, do not depend
      on the order in which the scan returns the keys. */
  lemma SharesOrderIndependent(db: Store, currentTime: int64, a: seq<string>, b: seq<string>)
    requires multiset(a) == multiset(b)
    ensures SharesOf(db, currentTime, a).Ok? <==> SharesOf(db, currentTime, b).Ok?
    ensures SharesOf(db, currentTime, a).Ok? ==> SharesOf(db, currentTime, a) == SharesOf(db, currentTime, b)
  {
    assert forall k :: k in a <==> k in multiset(a);
    assert forall k :: k in b <==> k in multiset(b);
    if SharesOf(db, currentTime, a).Ok? {
      var read := (k: string) => ReadShare(db, currentTime, k);
      var ra := Traverse(a, read).value;
      var rb := Traverse(b, read).value;
      SomesOfReads(db, currentTime, a, ra);
      SomesOfReads(db, currentTime, b, rb);
      RetainedPermutation(db, currentTime, a, b);
      TallyPermutation(Retained(db, currentTime, a), Retained(db, currentTime, b));
    }
  }

  /** Every scanned key has a third part, so `s[2]` never panics. */
  lemma ScannedShareKeyHasTime(db: Store, clientID: string, workerID: string, key: string)
    requires key in Scan(db, SharePattern(clientID, workerID))
    ensures TimeText(key).Some?
  {
    var p := SharePattern(clientID, workerID);
    assert key == p + key[|p|..];
    assert p == clientID + "." + (workerID + ".");
    OccurrencesAppend(workerID, ".", '.');
    OccurrencesAppend(clientID + ".", workerID + ".", '.');
    OccurrencesAppend(clientID, ".", '.');
    OccurrencesAppend(p, key[|p|..], '.');
    FieldPresent(key, '.', 2);
  }

  /** On scanned keys `GetShares` fails only on a missing field or a number
      that does not parse, never on a short key; and it fails exactly when
      reading some scanned key fails. */
  lemma GetSharesFailure(db: Store, clientID: string, workerID: string, currentTime: int64)
    ensures var r := GetShares(db, clientID, workerID, currentTime);
      r.Err? ==> r.error.Nil? || r.error.NumError?
    ensures var keys := Scan(db, SharePattern(clientID, workerID));
      GetShares(db, clientID, workerID, currentTime).Ok? <==> forall k | k in keys :: ReadShare(db, currentTime, k).Ok?
  {
    var keys := Scan(db, SharePattern(clientID, workerID));
    var r := GetShares(db, clientID, workerID, currentTime);
    if r.Err? {
      var i :| 0 <= i < |keys| && ReadShare(db, currentTime, keys[i]) == Err(r.error);
      ScannedShareKeyHasTime(db, clientID, workerID, keys[i]);
      ReadShareErrors(db, currentTime, keys[i]);
    }
  }

  /** Once a key has a time part, reading it can fail only on a missing field
      or a number that does not parse. */
  /** The fields are read `valid` first: a passing key without a `valid`
      field fails with that field's `redis.Nil`, whatever `difficulty` holds,
      and one with `valid` but no `difficulty` fails with the latter's. */
  lemma ReadShareFieldOrder(db: Store, currentTime: int64, key: string)
    requires Passes(currentTime, key)
    ensures HGet(db, key, "valid").Err? ==> ReadShare(db, currentTime, key) == Err(Nil(key, "valid"))
    ensures HGet(db, key, "valid").Ok? && HGet(db, key, "difficulty").Err? ==>
      ReadShare(db, currentTime, key) == Err(Nil(key, "difficulty"))
  {
  }

  lemma ReadShareErrors(db: Store, currentTime: int64, key: string)
    requires TimeText(key).Some? && ReadShare(db, currentTime, key).Err?
    ensures ReadShare(db, currentTime, key).error.Nil? || ReadShare(db, currentTime, key).error.NumError?
  {
  }

  /** For dot-free IDs and time text, the key `"{clientID}.{workerID}.{time}"`
      yields the time text. */
  lemma ShareKeyTime(clientID: string, workerID: string, time: string)
    requires '.' !in clientID && '.' !in workerID && '.' !in time
    ensures TimeText(clientID + "." + workerID + "." + time) == Some(time)
  {
    var parts := [clientID, workerID, time];
    assert Join(parts, '.') == clientID + "." + workerID + "." + time by {
      assert parts[1..] == [workerID, time];
      assert parts[1..][1..] == [time];
      assert Join(parts[1..], '.') == workerID + "." + time;
    }
    SplitJoin(parts, '.');
  }

  /** With no share retained the guarded report leaves `badrate` undefined,
      where the expression as written divides by zero. */
  lemma NoSharesAsWritten(db: Store, currentTime: int64, keys: seq<string>)
    requires SharesOf(db, currentTime, keys).Ok?
    requires Retained(db, currentTime, keys) == []
    ensures SharesOf(db, currentTime, keys).value.badrate.None?
    ensures var c := Tally(Retained(db, currentTime, keys));
      BadrateAsWritten(c.shares, c.numShares, c.numInvalidShares) == Err(DivideByZero)
  {
  }
}

=== FILE: strings.dfy ===
/** Go's `strings.Split` (equivalently `strings.SplitN(s, sep, -1)`) on a
    one-character separator, and positional access to its parts. */
module Strings {

  import opened Results

  /** The maximal separator-free runs of `s`, including empty ones between
      adjacent separators and at either end. */
  function Split(s: string, sep: char): (parts: seq<string>)
    ensures |parts| >= 1
    ensures forall i | 0 <= i < |parts| :: sep !in parts[i]
    decreases |s|
  {
    if |s| == 0 then [""]
    else
      var rest := Split(s[1..], sep);
      if s[0] == sep then [""] + rest
      else [[s[0]] + rest[0]] + rest[1..]
  }

  /** `strings.Join`: the parts with the separator between neighbours. */
  function Join(parts: seq<string>, sep: char): string
    requires |parts| >= 1
    decreases |parts|
  {
    if |parts| == 1 then parts[0] else parts[0] + [sep] + Join(parts[1..], sep)
  }

  /** Part `i` of the split, or None where Go's `s[i]` would panic. */
  function Field(s: string, sep: char, i: nat): Option<string>
  {
    var parts := Split(s, sep);
    if i < |parts| then Some(parts[i]) else None
  }

  function Occurrences(s: string, c: char): nat
    decreases |s|
  {
    if |s| == 0 then 0 else (if s[0] == c then 1 else 0) + Occurrences(s[1..], c)
  }

  /** Splitting loses nothing: joining the parts gives the string back. */
  lemma {:induction false} JoinSplit(s: string, sep: char)
    ensures Join(Split(s, sep), sep) == s
    decreases |s|
  {
    if |s| > 0 {
      var rest := Split(s[1..], sep);
      JoinSplit(s[1..], sep);
      if s[0] == sep {
        assert ([""] + rest)[1..] == rest;
        assert s == [sep] + s[1..];
      } else if |rest| == 1 {
        assert s == [s[0]] + s[1..];
      } else {
        var parts := [[s[0]] + rest[0]] + rest[1..];
        assert parts[1..] == rest[1..];
        assert s == [s[0]] + s[1..];
      }
    }
  }

  /** A separator-free string is a single part. */
  lemma {:induction false} SplitSingle(p: string, sep: char)
    requires sep !in p
    ensures Split(p, sep) == [p]
    decreases |p|
  {
    if |p| > 0 {
      SplitSingle(p[1..], sep);
      assert p == [p[0]] + p[1..];
    }
  }

  /** A separator-free head followed by a separator becomes the first part. */
  lemma {:induction false} SplitCons(p: string, sep: char, rest: string)
    requires sep !in p
    ensures Split(p + [sep] + rest, sep) == [p] + Split(rest, sep)
    decreases |p|
  {
    var s := p + [sep] + rest;
    if |p| == 0 {
      assert s[1..] == rest;
    } else {
      assert s[1..] == p[1..] + [sep] + rest;
      SplitCons(p[1..], sep, rest);
      assert [p[0]] + p[1..] == p;
    }
  }

  /** Joining separator-free parts and splitting again gives the parts back. */
  lemma {:induction false} SplitJoin(parts: seq<string>, sep: char)
    requires |parts| >= 1
    requires forall i | 0 <= i < |parts| :: sep !in parts[i]
    ensures Split(Join(parts, sep), sep) == parts
    decreases |parts|
  {
    if |parts| == 1 {
      SplitSingle(parts[0], sep);
    } else {
      SplitJoin(parts[1..], sep);
      SplitCons(parts[0], sep, Join(parts[1..], sep));
      assert [parts[0]] + parts[1..] == parts;
    }
  }

  /** There is one more part than there are separators. */
  lemma {:induction false} SplitCount(s: string, sep: char)
    ensures |Split(s, sep)| == Occurrences(s, sep) + 1
    decreases |s|
  {
    if |s| > 0 {
      SplitCount(s[1..], sep);
    }
  }

  lemma {:induction false} OccurrencesAppend(a: string, b: string, c: char)
    ensures Occurrences(a + b, c) == Occurrences(a, c) + Occurrences(b, c)
    decreases |a|
  {
    if |a| == 0 {
      assert a + b == b;
    } else {
      assert (a + b)[0] == a[0];
      assert (a + b)[1..] == a[1..] + b;
      OccurrencesAppend(a[1..], b, c);
    }
  }

  /** A string with at least `n` separators has a part at index `n`. */
  lemma FieldPresent(s: string, sep: char, n: nat)
    requires Occurrences(s, sep) >= n
    ensures Field(s, sep, n).Some?
  {
    SplitCount(s, sep);
  }
}

=== FILE: workers.dfy ===
/** `GetWorkers` of miner.go: the map from worker ID to worker name for one
    client, read from the `workers` database. */
module Workers {

  import opened Results
  import opened Strings
  import opened Redis

  /** One worker key as read: its ID (the second `.`-separated part of the
      key) and the value of its `worker` field. */
  datatype WorkerEntry = WorkerEntry(id: string, name: string)

  /** The prefix that the `SCAN` pattern `"{clientID}.*"` selects. */
  function WorkerPattern(clientID: string): string
  {
    clientID + "."
  }

  /** The worker ID of a key: its second `.`-separated part, or None where
      `s[1]` would panic. */
  function WorkerId(key: string): Option<string>
  {
    Field(key, '.', 1)
  }

  /** One pass of the loop body: split the key, take `s[1]`, then `HGET key worker`. */
  function ReadWorker(db: Store, key: string): Result<WorkerEntry>
  {
    match WorkerId(key)
    case None => Err(IndexOutOfRange(key, 1))
    case Some(id) =>
      var name :- HGet(db, key, "worker");
      Ok(WorkerEntry(id, name))
  }

  /** No entry after `i` has the same ID as entry `i`. */
  predicate LastWithId(entries: seq<WorkerEntry>, i: nat)
    requires i < |entries|
  {
    forall j | i < j < |entries| :: entries[j].id != entries[i].id
  }

  /** `workerList[workerID] = workerName` for each entry in turn. */
  function BuildWorkerMap(entries: seq<WorkerEntry>): map<string, string>
    decreases |entries|
  {
    if |entries| == 0 then map[]
    else
      var n := |entries| - 1;
      BuildWorkerMap(entries[..n])[entries[n].id := entries[n].name]
  }

  /** The map's keys are exactly the IDs of the entries. */
  lemma {:induction false} BuildWorkerMapDomain(entries: seq<WorkerEntry>, id: string)
    ensures id in BuildWorkerMap(entries) <==> exists i | 0 <= i < |entries| :: entries[i].id == id
    decreases |entries|
  {
    if |entries| > 0 {
      var n := |entries| - 1;
      BuildWorkerMapDomain(entries[..n], id);
      if id != entries[n].id && exists i | 0 <= i < |entries| :: entries[i].id == id {
        var i :| 0 <= i < |entries| && entries[i].id == id;
        assert entries[..n][i] == entries[i];
      }
    }
  }

  /** A repeated ID keeps the name of its last entry. */
  lemma {:induction false} BuildWorkerMapLastWins(entries: seq<WorkerEntry>, i: nat)
    requires i < |entries| && LastWithId(entries, i)
    ensures entries[i].id in BuildWorkerMap(entries)
    ensures BuildWorkerMap(entries)[entries[i].id] == entries[i].name
    decreases |entries|
  {
    var n := |entries| - 1;
    if i < n {
      assert entries[..n][i] == entries[i];
      assert LastWithId(entries[..n], i) by {
        forall j | i < j < n ensures entries[..n][j].id != entries[..n][i].id {
          assert entries[..n][j] == entries[j];
        }
      }
      BuildWorkerMapLastWins(entries[..n], i);
    }
  }

  /** No key after `i` has the same worker ID as key `i`. */
  predicate LastKeyWithId(keys: seq<string>, i: nat)
    requires i < |keys|
  {
    forall j | i < j < |keys| :: WorkerId(keys[j]) != WorkerId(keys[i])
  }

  /** The worker map built from the keys a scan returned, visited in order;
      the first failing key aborts with no partial map. */
  function WorkersOf(db: Store, keys: seq<string>): Result<map<string, string>>
  {
    var entries :- Traverse(keys, (k: string) => ReadWorker(db, k));
    Ok(BuildWorkerMap(entries))
  }

  /** `WorkersOf` succeeds exactly when every key has a worker ID and a
      `worker` field; otherwise it returns the error of the first key that
      does not. */
  lemma WorkersOfFailure(db: Store, keys: seq<string>)
    ensures WorkersOf(db, keys).Ok? <==> forall k | k in keys :: WorkerId(k).Some? && HGet(db, k, "worker").Ok?
    ensures WorkersOf(db, keys).Err? ==> exists i | 0 <= i < |keys| ::
      ReadWorker(db, keys[i]) == Err(WorkersOf(db, keys).error)
      && forall j | 0 <= j < i :: ReadWorker(db, keys[j]).Ok?
  {
    var t := Traverse(keys, (k: string) => ReadWorker(db, k));
    if t.Err? {
      var i :| 0 <= i < |keys| && FirstFailure(keys, (k: string) => ReadWorker(db, k), i)
        && ReadWorker(db, keys[i]).error == t.error;
    }
  }

  /** What a successful read of one key holds. */
  lemma ReadWorkerOk(db: Store, key: string)
    requires ReadWorker(db, key).Ok?
    ensures WorkerId(key).Some? && key in db.hashes && "worker" in db.hashes[key]
    ensures ReadWorker(db, key).value == WorkerEntry(WorkerId(key).value, db.hashes[key]["worker"])
  {
  }

  /** On success the map's keys are exactly the worker IDs of the scanned keys. */
  lemma WorkersOfDomain(db: Store, keys: seq<string>, id: string)
    requires WorkersOf(db, keys).Ok?
    ensures id in WorkersOf(db, keys).value <==> exists k | k in keys :: WorkerId(k) == Some(id)
  {
    var read := (k: string) => ReadWorker(db, k);
    var entries := Traverse(keys, read).value;
    BuildWorkerMapDomain(entries, id);
    if exists i | 0 <= i < |entries| :: entries[i].id == id {
      var i :| 0 <= i < |entries| && entries[i].id == id;
      ReadWorkerOk(db, keys[i]);
      assert keys[i] in keys;
    }
    if exists k | k in keys :: WorkerId(k) == Some(id) {
      var k :| k in keys && WorkerId(k) == Some(id);
      var i :| 0 <= i < |keys| && keys[i] == k;
      ReadWorkerOk(db, keys[i]);
    }
  }

  /** On success a worker ID is mapped to the `worker` field of the last
      scanned key that carries it. */
  lemma WorkersOfLastWins(db: Store, keys: seq<string>, i: nat)
    requires WorkersOf(db, keys).Ok?
    requires i < |keys| && LastKeyWithId(keys, i)
    ensures WorkerId(keys[i]).Some? && keys[i] in db.hashes && "worker" in db.hashes[keys[i]]
    ensures WorkerId(keys[i]).value in WorkersOf(db, keys).value
    ensures WorkersOf(db, keys).value[WorkerId(keys[i]).value] == db.hashes[keys[i]]["worker"]
  {
    var read := (k: string) => ReadWorker(db, k);
    var entries := Traverse(keys, read).value;
    ReadWorkerOk(db, keys[i]);
    assert LastWithId(entries, i) by {
      forall j | i < j < |entries| ensures entries[j].id != entries[i].id {
        ReadWorkerOk(db, keys[j]);
      }
    }
    BuildWorkerMapLastWins(entries, i);
  }

  /** `GetWorkers(clientID, conn)`: scan `"{clientID}.*"` and map each worker
      ID to its name. */
  function GetWorkers(db: Store, clientID: string): (r: Result<map<string, string>>)
    ensures r.Ok? <==> forall k | k in Scan(db, WorkerPattern(clientID)) :: HGet(db, k, "worker").Ok?
  {
    var keys := Scan(db, WorkerPattern(clientID));
    ScannedWorkerKeysHaveIds(db, clientID);
    WorkersOfFailure(db, keys);
    WorkersOf(db, keys)
  }

  /** Every scanned key has a worker ID. */
  lemma ScannedWorkerKeysHaveIds(db: Store, clientID: string)
    ensures forall k | k in Scan(db, WorkerPattern(clientID)) :: WorkerId(k).Some?
  {
    forall k | k in Scan(db, WorkerPattern(clientID)) ensures WorkerId(k).Some? {
      ScannedWorkerKeyHasId(db, clientID, k);
    }
  }

  /** Every scanned key has a second part, so `s[1]` never panics. */
  lemma ScannedWorkerKeyHasId(db: Store, clientID: string, key: string)
    requires key in Scan(db, WorkerPattern(clientID))
    ensures WorkerId(key).Some?
  {
    var p := WorkerPattern(clientID);
    assert key == p + key[|p|..];
    OccurrencesAppend(clientID, ".", '.');
    OccurrencesAppend(p, key[|p|..], '.');
    FieldPresent(key, '.', 1);
  }

  /** For dot-free client and worker IDs, the key `"{clientID}.{workerID}"`
      yields `workerID`. */
  lemma WorkerKeyId(clientID: string, workerID: string)
    requires '.' !in clientID && '.' !in workerID
    ensures WorkerId(clientID + "." + workerID) == Some(workerID)
  {
    var parts := [clientID, workerID];
    assert Join(parts, '.') == clientID + "." + workerID by {
      assert parts[1..] == [workerID];
    }
    SplitJoin(parts, '.');
  }

  /** `GetWorkers` fails exactly when some scanned key has no `worker` field,
      and then with the `redis.Nil` of the first such key. */
  lemma GetWorkersFailure(db: Store, clientID: string)
    ensures var keys := Scan(db, WorkerPattern(clientID));
      GetWorkers(db, clientID).Err? <==> exists k | k in keys :: HGet(db, k, "worker").Err?
    ensures var keys := Scan(db, WorkerPattern(clientID));
      GetWorkers(db, clientID).Err? ==> exists i | 0 <= i < |keys| ::
        GetWorkers(db, clientID).error == Nil(keys[i], "worker")
        && forall j | 0 <= j < i :: HGet(db, keys[j], "worker").Ok?
  {
    var keys := Scan(db, WorkerPattern(clientID));
    var r := GetWorkers(db, clientID);
    if r.Err? {
      assert r == WorkersOf(db, keys);
      WorkersOfFailure(db, keys);
      var i :| 0 <= i < |keys| && ReadWorker(db, keys[i]) == Err(r.error)
        && forall j | 0 <= j < i :: ReadWorker(db, keys[j]).Ok?;
      ScannedWorkerRead(db, clientID, keys[i]);
      assert r.error == Nil(keys[i], "worker");
      forall j | 0 <= j < i ensures HGet(db, keys[j], "worker").Ok? {
        ScannedWorkerRead(db, clientID, keys[j]);
      }
    }
  }

  /** On a scanned key, reading fails exactly when `HGET key worker` does,
      and then with its `redis.Nil`. */
  lemma ScannedWorkerRead(db: Store, clientID: string, key: string)
    requires key in Scan(db, WorkerPattern(clientID))
    ensures ReadWorker(db, key).Err? <==> HGet(db, key, "worker").Err?
    ensures ReadWorker(db, key).Err? ==> ReadWorker(db, key).error == Nil(key, "worker")
  {
    ScannedWorkerKeyHasId(db, clientID, key);
  }

}
